=== FILE: README.md ===
# MSHPro hotplate driver — Dafny model

This project models the driver for an MSHPro serial-controlled laboratory
hotplate/stirrer. It covers two parts and proves properties of both.

The **frame codec** is the `COMMUNICATION` enum and `checksum`. It turns a
command and an optional value into a six-byte request frame
`FE op hi lo 00 checksum`. It classifies the bytes read back into a parsed
record or one of four typed failures: incomplete response, bad format,
device error, or parse error.

The **sequencer** is the `MSHPro` class. It composes transactions into the
device's operations: `ping`, `status`, switching channels off, setting heat
or stir to a target, and cycling the heating mode. The device has toggle
semantics: sending any value to a channel stores that value and flips the
channel on or off. The sequencer turns this into idempotent "set to target"
requests.

Files and modules:

- `wrappers.dfy` (`Wrappers`): `Option` and `Result`.
- `codec.dfy` (`Codec`): bytes, opcodes, `LenRx`, `Checksum`, `Encode`, `Decode`.
- `codec_properties.dfy` (`CodecProperties`): checksum arithmetic, the fixed
  frames, and what each reply byte decides.
- `transport.dfy` (`Transport`): the abstract duplex transaction
  `Link<W> = (world, request, size) -> (world', bytes or failure)`.
  It stands in for the threaded serial layer.
- `device.dfy` (`Device`): a reference hotplate. It holds the toggle model
  (heat set/on, stir set/on, mode A→B→C→A). It also holds the firmware side
  of the protocol: a request decoder and a reply encoder, each proved to be
  the inverse of the codec in both directions. `Respond` is a `Link` over
  this device.
- `mshpro.dfy` (`MSHPro`): the sequencer. Each operation is a function of a
  link and a world. It returns `Run(world, out, sent)`:
  - `out` is the returned value or the raised error;
  - `sent` lists the request frames written, in order.
  
  Each operation also has a pure plan function listing the sends it decides
  on: `SetvalPlan`, `OffPlan`, `ModeSteps`.
- `plan_properties.dfy` (`PlanProperties`): the plans folded over the toggle
  model reach their target. They change nothing else and are minimal.
- `sequencer_properties.dfy` (`SequencerProperties`): facts that hold for
  every link:
  - the exact bytes `ping` accepts;
  - the normalised status versus the raw status;
  - setting a channel runs exactly its plan and stops at the first failure;
  - `heat` recovers from a failure by switching heat off.
- `reference_runs.dfy` (`ReferenceRuns`): every operation proved end to end
  against the reference hotplate.

A failed command is always raised, never returned as a false success flag:
`parse_response` never returns `success == False`; every path either sets it
true or raises. `Decode`'s
contract states this (`r.Ok? ==> r.value.success`). As a result, the
branches of `__setval` and `__off` that handle an unsuccessful reply are
unreachable. `SetvalRun` models those branches as written, and its contract
proves that it never returns `false`. A send either succeeds or raises, and
a raised error ends the operation.

The model follows the code in these details:

- The comment at Hotplates/MSHProCommunication.py:210 documents the mode
  byte as 1=A, 2=B, 3=C, but the `"_ABC"` lookup decodes a mode byte of 0
  to the unnamed mode "_" with no error. Only bytes of 4 or more are parse
  errors. Later, `mode()` raises when the current mode is "_" (`Error.UnknownMode`).
- `Decode` only checks the length from below (`len(b) < len_rx`). A longer
  reply is framed by its last byte:
  - for acknowledgement commands it is a parse error, because the payload is
    then not three bytes;
  - for INFO and STATUS the surplus payload bytes are ignored.
- `mode(letter)` looks the letter up with Python's `"ABC".index`, which
  finds substrings. So `""` and `"AB"` select A, and `"BC"` selects B.
  `MSHPro.FindFrom` models this lookup exactly.

Units: HEAT values, heat set points, actual temperatures and the heat limit
are integer tenths of a degree (200.0 °C is 2000). The source's `& 0xFF` on
non-negative integers is `% 256`.

## Model

| member | source | states |
|---|---|---|
| Codec.Checksum | Hotplates/MSHProCommunication.py:258-275 | the running add-and-mask loop equals the byte sum modulo 256 (always a byte) |
| Codec.Encode | Hotplates/MSHProCommunication.py:89-145 | every frame is `FE op hi lo 00 cs` with `cs` the checksum of `op hi lo`; value-less commands always encode, with zero value bytes; STIR/HEAT encode iff a value is given and lies in 0..65535, and then `hi*256+lo` is that value; the only failure is InvalidValue |
| Codec.Decode | Hotplates/MSHProCommunication.py:147-234 | fewer than `len_rx` bytes (11 for INFO/STATUS, 6 otherwise) is IncompleteResponse and nothing else is; a long-enough reply failing marker, opcode echo or checksum is ResponseFormat and nothing else is; every success has `success = true`, is properly framed and has the record kind of its command |
| CodecProperties.ChecksumAppend | Hotplates/MSHProCommunication.py:270-275 | the checksum of a concatenation is the sum of the parts' checksums modulo 256 |
| CodecProperties.ChecksumBlockOrder | Hotplates/MSHProCommunication.py:270-275 | swapping two blocks of a message does not change its checksum |
| CodecProperties.ChecksumDetectsSingleByteChange | Hotplates/MSHProCommunication.py:270-275 | changing any single byte of a message changes its checksum |
| CodecProperties.FixedFrames | Hotplates/MSHProCommunication.py:106-116 | PING, INFO, STATUS and _MODE encode to `FE op 00 00 00 op` whatever value is passed |
| CodecProperties.HeatFrameExample | Hotplates/MSHProCommunication.py:127-145 | HEAT 200.0 °C (2000 tenths) encodes as `FE B2 07 D0 00 89` |
| CodecProperties.AckClassification | Hotplates/MSHProCommunication.py:188-206 | for PING/STIR/HEAT/_MODE a framed reply succeeds iff its payload is `00 00 00`; it is a device error iff the payload is `01 00 00` and the command is not PING; every other payload is a parse error |
| CodecProperties.InfoClassification | Hotplates/MSHProCommunication.py:208-219 | a framed INFO reply succeeds iff the mode byte is below 4; mode 0/1/2/3 maps to "_"/A/B/C; stir_on, heat_on and heat_alarm hold iff their byte is 0; heat_limit is bytes 3-4 big-endian |
| CodecProperties.StatusClassification | Hotplates/MSHProCommunication.py:221-232 | a framed STATUS reply always decodes into its four big-endian 16-bit pairs |
| Device.CommandOfOpcode | Hotplates/MSHProCommunication.py:65-70 | the opcode table is injective: each opcode byte names at most one command, and every command's opcode is recognised |
| Device.CycleIndex | Hotplates/MSHProCommunication.py:44-49 | k mode sends move the mode k positions round A, B, C |
| Device.SendAllEffect | Hotplates/MSHProCommunication.py:27-35 | value sends to one channel leave the other channel and the mode alone; the channel keeps the last value sent; it is on iff it started on and received an even number of sends, or started off and received an odd number |
| Device.CycleAllEffect | Hotplates/MSHProCommunication.py:44-49 | k mode sends change only the mode, by k steps |
| Device.RequestRoundTrip | Hotplates/MSHProCommunication.py:106-145 | a device reading an encoded request recovers exactly the command and value that were encoded |
| Device.RequestRoundTripBack | Hotplates/MSHProCommunication.py:106-145 | every frame the device accepts is the encoding of the command and value it reads |
| Device.EncodeReply | Hotplates/MSHProCommunication.py:80-87 | a reply frame has exactly `len_rx` bytes and passes the marker, echo and checksum checks |
| Device.ReplyRoundTrip | Hotplates/MSHProCommunication.py:185-232 | decoding an encoded reply yields exactly the encoded record, with `success = true` |
| Device.ReplyRoundTripBack | Hotplates/MSHProCommunication.py:185-232 | a decodable reply of the exact length, with flag bytes 0 or 1 and zero unused INFO bytes, is re-encoded byte for byte from its record |
| Device.RespondToEncoded | Hotplates/MSHProCommunication.py:27-49 | the reference hotplate performs every encodable request under the toggle rule and answers with a reply the codec accepts as a success carrying the device's data |
| MSHPro.Send | Hotplates/MSHPro.py:103-133 | an encoding failure raises InvalidValue before anything is written; otherwise exactly the encoded frame is written, with `len_rx` as the read size; a link failure is raised as that Transfer error and a reply that does not decode as that codec error; the send succeeds iff the link returns bytes and those bytes decode, and it then returns their decoding |
| MSHPro.RunSteps | Hotplates/MSHPro.py:378-381 | the frames written are the encodings of a prefix of the steps, in order; a successful run wrote all of them; a failed run raises only codec or link errors |
| MSHPro.RunStepsFirstFailure | Hotplates/MSHPro.py:128-132 | a failed run of steps has a first failing step: every step before it succeeded, and the run ends with that step's frame and raises exactly that send's error |
| MSHPro.PingRun | Hotplates/MSHPro.py:135-145 | ping never raises; it returns true iff the PING exchange returned bytes that decode as a success |
| MSHPro.Normalise | Hotplates/MSHPro.py:204-209 | normalising a view with numeric set values makes every set value "Off" exactly when its channel is off; a channel that is on keeps its set value; no other field changes |
| MSHPro.ReadStatus | Hotplates/MSHPro.py:202-212 | STATUS is sent first; if it fails, its error is raised and INFO is never sent; if INFO fails, its error is raised after both frames; a success sent both frames and has `success = true`; raw values are numeric; in the normalised view a set value is "Off" iff its channel is off; only codec or link errors are raised |
| MSHPro.OffRun | Hotplates/MSHPro.py:214-235 | a failed status read raises that read's error and sends nothing more; after a good status read, off is exactly the status frames followed by running the planned sends (same frames, world and error), so a success sent the status read plus exactly the planned sends; only codec or link errors are raised |
| MSHPro.OffEachFollowsPlan | Hotplates/MSHPro.py:221-235 | the off loop issues exactly one send of the current set value for each listed channel that is on, in order, and stops at the first failure |
| MSHPro.SetvalPlan | Hotplates/MSHPro.py:250-290 | every planned send carries the target; no sends iff the channel is already on at the target; two sends iff it is on at another value; never more than two |
| MSHPro.SetvalRun | Hotplates/MSHPro.py:237-290 | setting never returns false: it returns true or raises a codec or link error; a failed status read raises that read's own error after its frames; every run that does not raise starts with the status read; at most four frames are written |
| MSHPro.HeatRun | Hotplates/MSHPro.py:298-329 | a falsy value is exactly heat-off; an in-range value whose set succeeds is exactly `__setval(HEAT, val)`, nothing more (a failed set is followed by heat-off, see HeatRecoversFromFailure); heat succeeds only for a falsy value or a value within 25.0..340.0 °C; OutOfRange is raised only for a truthy out-of-range value, which runs heat-off, then heat-off again in the handler, and raises OutOfRange unless a heat-off failed, in which case the later heat-off's error wins; every other error is a codec or link error passed on |
| MSHPro.StirRun | Hotplates/MSHPro.py:337-362 | a falsy value is exactly stir-off; an in-range value is exactly `__setval(STIR, val)` with its frames, world and error; OutOfRange is raised iff the value is truthy and outside 100..1500 rpm, and then with nothing sent and the world unchanged; every other error is a codec or link error passed on; success only for falsy or in-range values |
| MSHPro.FindFrom | Hotplates/MSHPro.py:378-379 | Python's `str.index`: the result is the first position where the string occurs; none is returned iff it occurs nowhere |
| MSHPro.ModeRun | Hotplates/MSHPro.py:370-381 | UnknownMode is raised iff the target is not found in "ABC" (then with nothing sent) or INFO reports the unnamed mode; a failed INFO read raises its own error; after INFO reports a named mode m the run is exactly INFO followed by running `(3 + target - m) % 3` cycle commands, stopping at and raising the first failing one; every other error is a codec or link error; at most three frames on success |
| PlanProperties.SetvalPlanReachesTarget | Hotplates/MSHPro.py:250-290 | folding the set plan over the toggle model leaves the channel on at the target, with the other channel and the mode unchanged |
| PlanProperties.SetvalPlanMinimal | Hotplates/MSHPro.py:280-290 | no shorter sequence of value sends leaves the channel on at the target, so the second send is forced |
| PlanProperties.SetvalPlanTable | Hotplates/MSHPro.py:250-290 | the four cases: on at target gives 0 sends; off at target gives 1 send of the set value; off elsewhere gives 1 send of the target; on elsewhere gives 2 sends of the target |
| PlanProperties.ModeStepsReachTarget | Hotplates/MSHPro.py:378-381 | `(3 + target - current) % 3` cycles reach the target; no fewer cycles do; the count is zero iff already at the target |
| PlanProperties.ModeStepsExamples | Hotplates/MSHPro.py:380 | A to A takes 0 cycles, A to C takes 2, C to A takes 1 |
| PlanProperties.OffPlanCount | Hotplates/MSHPro.py:222-234 | switching off distinct channels sends once per listed channel that is on and never for one already off |
| SequencerProperties.PingExact | Hotplates/MSHPro.py:142-145 | ping is true iff the device answered exactly `FD A0 00 00 00 A0` |
| SequencerProperties.NormalisedStatus | Hotplates/MSHPro.py:202-212 | the normalised status makes the same transactions as the raw one; its record is the raw record normalised, and its error is the raw one |
| SequencerProperties.SetvalFollowsPlan | Hotplates/MSHPro.py:237-290 | after the status read, setting a channel is exactly running its plan: same frames, same order, same world, same error |
| SequencerProperties.SetvalStopsAtFirstFailure | Hotplates/MSHPro.py:267-271 | if the first send fails, the failure is raised and no second send is written (at most three frames in all) |
| SequencerProperties.HeatRecoversFromFailure | Hotplates/MSHPro.py:317-329 | a failure while setting the temperature is followed by a heat-off before it is raised again; an error from that heat-off replaces it |
| ReferenceRuns.SendToReference | Hotplates/MSHPro.py:103-133 | one transaction with the reference hotplate performs the command and returns its data as a success |
| ReferenceRuns.ReadStatusOfReference | Hotplates/MSHPro.py:202-212 | the status of the reference hotplate reports its state, raw or normalised, and changes nothing |
| ReferenceRuns.PingOnReference | Hotplates/MSHPro.py:135-145 | ping of the reference hotplate is true and changes nothing |
| ReferenceRuns.RunValuesOnReference | Hotplates/MSHPro.py:259-287 | running value sends on the reference hotplate succeeds and yields the toggle-model fold |
| ReferenceRuns.SetvalOnReference | Hotplates/MSHPro.py:237-290 | setting a channel of the reference hotplate returns true; it leaves the channel on at the target (or at its set value when none is given) and changes nothing else; it writes the status read plus the planned sends |
| ReferenceRuns.OffEachOnReference | Hotplates/MSHPro.py:221-235 | the off loop on the reference hotplate switches each listed channel off, keeping its set value |
| ReferenceRuns.OffOnReference | Hotplates/MSHPro.py:214-235 | switching off distinct channels leaves them off at their old set values and changes nothing else; it writes two status frames plus one per listed channel that was on |
| ReferenceRuns.HeatOnReference | Hotplates/MSHPro.py:298-335 | heat is off after a falsy value; heat is on at the target after an in-range value; an out-of-range value leaves heat off, raises OutOfRange and writes two status reads per heat-off plus one send if heat was on |
| ReferenceRuns.StirOnReference | Hotplates/MSHPro.py:337-368 | stirring is off after a falsy value and on at the target after an in-range value |
| ReferenceRuns.FoundInABC | Hotplates/MSHPro.py:378 | any string `"ABC".index` accepts yields position 0, 1 or 2 |
| ReferenceRuns.ModeLetters | Hotplates/MSHPro.py:378 | "A", "B" and "C" are found at 0, 1 and 2; "D" is not found |
| ReferenceRuns.RunCyclesOnReference | Hotplates/MSHPro.py:380-381 | k cycle commands on the reference hotplate succeed and advance the mode k steps |
| ReferenceRuns.ModeOnReference | Hotplates/MSHPro.py:370-381 | mode reaches the requested mode and changes nothing else; it writes INFO plus `(3 + target - current) % 3` cycle commands |

## Left out

- Hotplates/SerialThreadedDuplex.py is not part of this model. Its thread-per-transaction read/write, busy check and result slot are replaced by the abstract `Transport.Link`. Any failure it raises is folded into `NoData` or `IoFailure`, and `Busy`, `NotComplete` and `NoCommunication` are not told apart. The port name parser is also out, because it depends on the operating system.
- Serial lifecycle and settings (`SERIAL_SETTINGS`, `__init__`, `__del__`, `port`, `serial_open`, `serial_close`) are I/O plumbing and are out. So is the fact that `serial_open` runs before the request is encoded.
- Floating point: `int(float(val) * 10)` for HEAT and the `/ 10.0` decodings are out. Temperatures are carried as integer tenths, and HEAT arguments that are not whole tenths are outside the model.
- Python's dynamic typing is out: `int(val)` or `float(val)` raising on a non-numeric argument, and `heat` or `stir` receiving strings. Truthiness is modelled as "missing or zero".
- `text_command` is a thin string dispatcher and is out. `off`, `heat_off` and `stir_off` are `MSHPro.OffRun` with `[Heat, Stir]`, `[Heat]` and `[Stir]`. `_status` and `_info` are `MSHPro.Send` with STATUS and INFO.
- Logging is out, and so is the `str` branch of `checksum` (`map(ord, ...)`). The checksum is modelled over byte sequences only.
- The `heat_alarm` field is read but kept in the normalised status, as the code does. It is not hidden.
- ReferenceRuns.OffOnReference: stated only for distinct channels. With a channel listed twice, `__off` sends twice from one status snapshot and switches that channel back on. No caller in the source does this.

=== FILE: codec.dfy ===
/** The hotplate's binary serial protocol: opcodes, the six-byte request
    frame, the response frame, the additive checksum and the classification
    of every reply into a parsed record or one of four typed failures. */
module Codec {
  import opened Wrappers

  /** One octet on the serial line. */
  type Byte = x: int | 0 <= x < 256

  /** Largest value an unsigned 16-bit frame field can carry. */
  const WordMax := 65535

  /** An unsigned 16-bit frame field. */
  type U16 = x: int | 0 <= x <= WordMax

  const RequestMarker: Byte := 0xFE
  const ResponseMarker: Byte := 0xFD

  /** The commands of the protocol; `CycleMode` is the undocumented `_MODE`. */
  datatype Command = Ping | Info | Status | Stir | Heat | CycleMode

  function Opcode(c: Command): Byte {
    match c
    case Ping => 0xA0
    case Info => 0xA1
    case Status => 0xA2
    case Stir => 0xB1
    case Heat => 0xB2
    case CycleMode => 0xB3
  }

  /** Commands whose request frame carries a 16-bit value. */
  predicate CarriesValue(c: Command) {
    c == Stir || c == Heat
  }

  /** Commands answered with an eight-byte payload instead of a three-byte acknowledgement. */
  predicate IsQuery(c: Command) {
    c == Info || c == Status
  }

  /** Number of bytes the device sends back for `c`. */
  function LenRx(c: Command): nat {
    if IsQuery(c) then 11 else 6
  }

  /** Failures of encoding and decoding. */
  datatype CommError =
    | InvalidValue        // value missing or not an unsigned 16-bit integer
    | IncompleteResponse  // fewer bytes than expected arrived before the timeout
    | ResponseFormat      // bad marker, opcode echo or checksum
    | DeviceError         // the device reported a failure
    | ResponseParse       // well-formed frame with a payload that cannot be decoded

  // ---------------------------------------------------------------------------
  // Checksum

  /** Plain sum of the byte values. */
  function Sum(bs: seq<Byte>): nat {
    if bs == [] then 0 else bs[0] + Sum(bs[1..])
  }

  /** The checksum loop: add each byte to the running value, keep the low eight bits. */
  function ChecksumFrom(acc: Byte, bs: seq<Byte>): Byte
    decreases |bs|
  {
    if bs == [] then acc else ChecksumFrom((acc + bs[0]) % 256, bs[1..])
  }

  lemma {:induction false} ChecksumFromIsSum(acc: Byte, bs: seq<Byte>)
    ensures ChecksumFrom(acc, bs) == (acc + Sum(bs)) % 256
    decreases |bs|
  {
    if bs != [] {
      ChecksumFromIsSum((acc + bs[0]) % 256, bs[1..]);
      ModAddLeft(acc + bs[0], Sum(bs[1..]));
    }
  }

  lemma ModAddLeft(x: nat, y: nat)
    ensures (x % 256 + y) % 256 == (x + y) % 256
  {
    var q := x / 256;
    assert x == q * 256 + x % 256;
    assert x + y == q * 256 + (x % 256 + y);
  }

  /** Checksum shared by requests and responses: the byte sum modulo 256. */
  function Checksum(bs: seq<Byte>): (c: Byte)
    ensures c == Sum(bs) % 256
  {
    ChecksumFromIsSum(0, bs);
    ChecksumFrom(0, bs)
  }

  // ---------------------------------------------------------------------------
  // Requests

  /** Big-endian 16-bit field. */
  function Word(hi: Byte, lo: Byte): U16 {
    hi * 256 + lo
  }

  /** The request frame layout `FE op hi lo 00 checksum`, the checksum
      covering the opcode and the two value bytes. */
  predicate IsRequestFrame(f: seq<Byte>) {
    |f| == 6 && f[0] == RequestMarker && f[4] == 0 && f[5] == Checksum(f[1..4])
  }

  lemma ChecksumOfOpcodeAlone(op: Byte)
    ensures Checksum([op, 0, 0]) == op
  {
    var s: seq<Byte> := [op, 0, 0];
    assert s[1..] == [0, 0];
    assert s[1..][1..] == [0];
    assert s[1..][1..][1..] == [];
    assert Sum(s[1..][1..]) == 0;
    assert Sum(s) == op;
  }

  /** Bytes sent to the device for command `c`; `val` is the value of a
      STIR (rpm) or HEAT (tenths of a degree) command and ignored otherwise. */
  function Encode(c: Command, val: Option<int>): (r: Result<seq<Byte>, CommError>)
    ensures r.Ok? ==> IsRequestFrame(r.value) && r.value[1] == Opcode(c)
    ensures !CarriesValue(c) ==> r.Ok? && r.value[2] == 0 && r.value[3] == 0
    ensures CarriesValue(c) ==> (r.Ok? <==> val.Some? && 0 <= val.value <= WordMax)
    ensures CarriesValue(c) && r.Ok? ==> Word(r.value[2], r.value[3]) == val.value
    ensures r.Err? ==> r.error == InvalidValue
  {
    if !CarriesValue(c) then
      var frame: seq<Byte> := [RequestMarker, Opcode(c), 0, 0, 0, Opcode(c)];
      assert frame[1..4] == [Opcode(c), 0, 0];
      ChecksumOfOpcodeAlone(Opcode(c));
      Ok(frame)
    else if val.None? then
      Err(InvalidValue)
    else if !(0 <= val.value <= WordMax) then
      Err(InvalidValue)
    else
      var v := val.value;
      var encoded: seq<Byte> := [Opcode(c), v / 256, v % 256];
      Ok([RequestMarker] + encoded + [0, Checksum(encoded)])
  }

  // ---------------------------------------------------------------------------
  // Responses

  /** Heating profile selected on the device. */
  datatype Mode = A | B | C

  /** Position of a mode in "ABC". */
  function ModeIndex(m: Mode): nat {
    match m
    case A => 0
    case B => 1
    case C => 2
  }

  /** The data a reply carries. Temperatures are in tenths of a degree. */
  datatype Reply =
    | Ack
    | InfoReply(mode: Option<Mode>, stirOn: bool, heatOn: bool, heatLimit: U16, heatAlarm: bool)
    | StatusReply(stirSet: U16, stirActual: U16, heatSet: U16, heatActual: U16)

  /** A parsed response: the record the source returns, with its `success` flag. */
  datatype Parsed = Parsed(success: bool, reply: Reply)

  /** The reply kind each command is answered with. */
  predicate Fits(c: Command, reply: Reply) {
    match c
    case Info => reply.InfoReply?
    case Status => reply.StatusReply?
    case _ => reply.Ack?
  }

  /** Marker, opcode echo and trailing checksum over the bytes strictly between. */
  predicate FrameChecks(c: Command, b: seq<Byte>)
    requires |b| >= 2
  {
    b[0] == ResponseMarker && b[1] == Opcode(c) && b[|b| - 1] == Checksum(b[1..|b| - 1])
  }

  /** The INFO mode byte looked up in the table "_ABC": 0 is the unnamed mode. */
  function ModeOfCode(k: Byte): Option<Mode>
    requires k < 4
  {
    if k == 1 then Some(A) else if k == 2 then Some(B) else if k == 3 then Some(C) else None
  }

  /** Classify the bytes received in answer to `c`. */
  function Decode(c: Command, b: seq<Byte>): (r: Result<Parsed, CommError>)
    ensures r == Err(IncompleteResponse) <==> |b| < LenRx(c)
    ensures r == Err(ResponseFormat) <==> |b| >= LenRx(c) && !FrameChecks(c, b)
    ensures r.Ok? ==> r.value.success && Fits(c, r.value.reply)
    ensures r.Ok? ==> FrameChecks(c, b)
    ensures r.Err? ==> r.error != InvalidValue
  {
    if |b| < LenRx(c) then
      Err(IncompleteResponse)
    else if !FrameChecks(c, b) then
      Err(ResponseFormat)
    else
      var data := b[2..|b| - 1];
      match c
      case Info =>
        if data[0] < 4 then
          Ok(Parsed(true, InfoReply(ModeOfCode(data[0]), data[1] == 0, data[2] == 0,
                                    Word(data[3], data[4]), data[5] == 0)))
        else
          Err(ResponseParse)
      case Status =>
        Ok(Parsed(true, StatusReply(Word(data[0], data[1]), Word(data[2], data[3]),
                                    Word(data[4], data[5]), Word(data[6], data[7]))))
      case _ =>
        if data == [0, 0, 0] then
          Ok(Parsed(true, Ack))
        else if data == [1, 0, 0] && c != Ping then
          Err(DeviceError)
        else
          Err(ResponseParse)
  }
}

=== FILE: codec_properties.dfy ===
/** Properties of the frame codec: the checksum's arithmetic, the fixed
    request frames, and what each byte of a reply decides. */
module CodecProperties {
  import opened Wrappers
  import opened Codec

  // ---------------------------------------------------------------------------
  // Checksum

  lemma {:induction false} SumAppend(a: seq<Byte>, b: seq<Byte>)
    ensures Sum(a + b) == Sum(a) + Sum(b)
    decreases |a|
  {
    if a == [] {
      assert a + b == b;
    } else {
      assert (a + b)[0] == a[0];
      assert (a + b)[1..] == a[1..] + b;
      SumAppend(a[1..], b);
    }
  }

  /** The checksum of a concatenation is the sum of the parts' checksums. */
  lemma ChecksumAppend(a: seq<Byte>, b: seq<Byte>)
    ensures Checksum(a + b) == (Checksum(a) + Checksum(b)) % 256
  {
    SumAppend(a, b);
    ModAddLeft(Sum(a), Sum(b));
    ModAddLeft(Sum(b), Checksum(a));
  }

  /** Swapping two blocks of a message leaves its checksum unchanged. */
  lemma ChecksumBlockOrder(a: seq<Byte>, b: seq<Byte>)
    ensures Checksum(a + b) == Checksum(b + a)
  {
    SumAppend(a, b);
    SumAppend(b, a);
  }

  /** Replacing a single byte always changes the checksum: two bytes differ
      by less than 256, so their difference cannot vanish modulo 256. */
  lemma ChecksumDetectsSingleByteChange(a: seq<Byte>, b: seq<Byte>, i: nat)
    requires |a| == |b| && i < |a|
    requires a[i] != b[i]
    requires forall j :: 0 <= j < |a| && j != i ==> a[j] == b[j]
    ensures Checksum(a) != Checksum(b)
  {
    assert a == a[..i] + [a[i]] + a[i + 1..];
    assert b == b[..i] + [b[i]] + b[i + 1..];
    assert a[..i] == b[..i];
    assert a[i + 1..] == b[i + 1..];
    SumAppend(a[..i] + [a[i]], a[i + 1..]);
    SumAppend(a[..i], [a[i]]);
    SumAppend(b[..i] + [b[i]], b[i + 1..]);
    SumAppend(b[..i], [b[i]]);
    assert Sum([a[i]]) == a[i] by { assert [a[i]][1..] == []; }
    assert Sum([b[i]]) == b[i] by { assert [b[i]][1..] == []; }
    var rest := Sum(a[..i]) + Sum(a[i + 1..]);
    assert Sum(a) == rest + a[i];
    assert Sum(b) == rest + b[i];
    SmallDifferenceSurvivesMod(rest, a[i], b[i]);
  }

  lemma SmallDifferenceSurvivesMod(base: nat, x: Byte, y: Byte)
    requires x != y
    ensures (base + x) % 256 != (base + y) % 256
  {
  }

  // ---------------------------------------------------------------------------
  // Requests

  /** The value-less commands always produce their fixed frame, whatever value is passed. */
  lemma FixedFrames(val: Option<int>)
    ensures Encode(Ping, val) == Ok([0xFE, 0xA0, 0x00, 0x00, 0x00, 0xA0])
    ensures Encode(Info, val) == Ok([0xFE, 0xA1, 0x00, 0x00, 0x00, 0xA1])
    ensures Encode(Status, val) == Ok([0xFE, 0xA2, 0x00, 0x00, 0x00, 0xA2])
    ensures Encode(CycleMode, val) == Ok([0xFE, 0xB3, 0x00, 0x00, 0x00, 0xB3])
  {
  }

  /** A HEAT request for 200.0 degrees carries 2000 = 0x07D0 tenths. */
  lemma HeatFrameExample()
    ensures Encode(Heat, Some(2000)) == Ok([0xFE, 0xB2, 0x07, 0xD0, 0x00, 0x89])
  {
    var e: seq<Byte> := [0xB2, 0x07, 0xD0];
    assert e[1..] == [0x07, 0xD0] && e[1..][1..] == [0xD0] && e[1..][1..][1..] == [];
    assert Sum(e) == 0xB2 + 0x07 + 0xD0;
    assert Checksum(e) == 0x89;
    assert [RequestMarker] + e + [0, Checksum(e)] == [0xFE, 0xB2, 0x07, 0xD0, 0x00, 0x89];
  }

  // ---------------------------------------------------------------------------
  // Responses

  /** For PING, STIR, HEAT and the mode cycle, a framed reply succeeds only
      on the payload 00 00 00; 01 00 00 is the device's failure report except
      for PING; every other payload is a parse error. */
  lemma AckClassification(c: Command, b: seq<Byte>)
    requires !IsQuery(c) && |b| >= 6 && FrameChecks(c, b)
    ensures Decode(c, b).Ok? <==> |b| == 6 && b[2] == 0 && b[3] == 0 && b[4] == 0
    ensures Decode(c, b) == Err(DeviceError)
            <==> c != Ping && |b| == 6 && b[2] == 1 && b[3] == 0 && b[4] == 0
    ensures Decode(c, b).Err? ==> Decode(c, b).error in {DeviceError, ResponseParse}
  {
    var data := b[2..|b| - 1];
    if |b| == 6 {
      assert data == [b[2], b[3], b[4]];
    } else {
      assert |data| != 3;
    }
  }

  /** What each payload byte of a framed INFO reply decides. */
  lemma InfoClassification(b: seq<Byte>)
    requires |b| >= 11 && FrameChecks(Info, b)
    ensures Decode(Info, b).Ok? <==> b[2] < 4
    ensures Decode(Info, b).Err? ==> Decode(Info, b).error == ResponseParse
    ensures Decode(Info, b).Ok? ==>
              var r := Decode(Info, b).value.reply;
              && (r.mode == None <==> b[2] == 0)
              && (r.mode == Some(A) <==> b[2] == 1)
              && (r.mode == Some(B) <==> b[2] == 2)
              && (r.mode == Some(C) <==> b[2] == 3)
              && (r.stirOn <==> b[3] == 0)
              && (r.heatOn <==> b[4] == 0)
              && r.heatLimit == (b[5] as int) * 256 + b[6]
              && (r.heatAlarm <==> b[7] == 0)
  {
  }

  /** A framed STATUS reply always decodes, into its four big-endian pairs. */
  lemma StatusClassification(b: seq<Byte>)
    requires |b| >= 11 && FrameChecks(Status, b)
    ensures Decode(Status, b).Ok?
    ensures Decode(Status, b).value.reply
            == StatusReply((b[2] as int) * 256 + b[3], (b[4] as int) * 256 + b[5],
                        (b[6] as int) * 256 + b[7], (b[8] as int) * 256 + b[9])
  {
  }
}

=== FILE: device.dfy ===
/** A reference hotplate: the toggle semantics the protocol documents
    (sending a STIR or HEAT value stores it and flips that channel on or off,
    the undocumented mode command steps A, B, C, A), and the firmware side
    of the protocol, which reads request frames and writes reply frames.
    The codec and the sequencer are proved correct when talking to it. */
module Device {
  import opened Wrappers
  import opened Codec
  import opened Transport

  /** Everything the device reports. Temperatures are in tenths of a degree. */
  datatype Hotplate = Hotplate(
    heatSet: U16, heatOn: bool,
    stirSet: U16, stirOn: bool,
    mode: Mode,
    heatActual: U16, stirActual: U16, heatLimit: U16, heatAlarm: bool)

  // ---------------------------------------------------------------------------
  // Toggle model

  function Next(m: Mode): Mode {
    match m
    case A => B
    case B => C
    case C => A
  }

  /** The mode reached after `k` steps of the cycle. */
  function Cycle(m: Mode, k: nat): Mode
    decreases k
  {
    if k == 0 then m else Cycle(Next(m), k - 1)
  }

  lemma {:induction false} CycleIndex(m: Mode, k: nat)
    ensures ModeIndex(Cycle(m, k)) == (ModeIndex(m) + k) % 3
    decreases k
  {
    if k > 0 {
      CycleIndex(Next(m), k - 1);
    }
  }

  /** The effect of one accepted request: a value send stores the value and
      toggles the channel, a mode send advances the mode, queries change nothing. */
  function Perform(d: Hotplate, c: Command, v: U16): Hotplate {
    match c
    case Heat => d.(heatSet := v, heatOn := !d.heatOn)
    case Stir => d.(stirSet := v, stirOn := !d.stirOn)
    case CycleMode => d.(mode := Next(d.mode))
    case _ => d
  }

  /** Set value and on flag of a value-carrying channel. */
  function SetOf(d: Hotplate, c: Command): U16
    requires CarriesValue(c)
  {
    if c == Heat then d.heatSet else d.stirSet
  }

  function OnOf(d: Hotplate, c: Command): bool
    requires CarriesValue(c)
  {
    if c == Heat then d.heatOn else d.stirOn
  }

  /** The device with channel `c` holding `v`, switched on or off. */
  function WithChannel(d: Hotplate, c: Command, v: U16, on: bool): Hotplate
    requires CarriesValue(c)
  {
    if c == Heat then d.(heatSet := v, heatOn := on) else d.(stirSet := v, stirOn := on)
  }

  /** The device after `c` received each of `values` in turn. */
  function SendAll(d: Hotplate, c: Command, values: seq<U16>): Hotplate
    decreases |values|
  {
    if values == [] then d else SendAll(Perform(d, c, values[0]), c, values[1..])
  }

  /** The device after `k` mode sends. */
  function CycleAll(d: Hotplate, k: nat): Hotplate
    decreases k
  {
    if k == 0 then d else CycleAll(Perform(d, CycleMode, 0), k - 1)
  }

  /** Value sends on one channel leave the other channel and the mode alone,
      and leave the channel holding the last value sent, on exactly when an
      odd number of values was sent to a channel that was off, or an even
      number to one that was on. */
  lemma {:induction false} SendAllEffect(d: Hotplate, c: Command, values: seq<U16>)
    requires CarriesValue(c)
    ensures var e := SendAll(d, c, values);
      && (c == Heat ==> e == d.(heatSet := e.heatSet, heatOn := e.heatOn))
      && (c == Stir ==> e == d.(stirSet := e.stirSet, stirOn := e.stirOn))
      && SetOf(e, c) == (if values == [] then SetOf(d, c) else values[|values| - 1])
      && (OnOf(e, c) <==> (OnOf(d, c) <==> |values| % 2 == 0))
    decreases |values|
  {
    if values != [] {
      SendAllEffect(Perform(d, c, values[0]), c, values[1..]);
      if |values| > 1 {
        assert values[1..][|values[1..]| - 1] == values[|values| - 1];
      }
    }
  }

  /** `k` mode sends advance the mode by `k` steps and change nothing else. */
  lemma {:induction false} CycleAllEffect(d: Hotplate, k: nat)
    ensures CycleAll(d, k) == d.(mode := Cycle(d.mode, k))
    decreases k
  {
    if k > 0 {
      CycleAllEffect(Perform(d, CycleMode, 0), k - 1);
    }
  }

  // ---------------------------------------------------------------------------
  // Firmware side of the protocol

  /** A request as the device reads it. */
  datatype Request = Request(cmd: Command, value: U16)

  function CommandOfOpcode(op: Byte): (r: Option<Command>)
    ensures r.Some? ==> Opcode(r.value) == op
    ensures forall c: Command :: Opcode(c) == op ==> r == Some(c)
  {
    if op == 0xA0 then Some(Ping)
    else if op == 0xA1 then Some(Info)
    else if op == 0xA2 then Some(Status)
    else if op == 0xB1 then Some(Stir)
    else if op == 0xB2 then Some(Heat)
    else if op == 0xB3 then Some(CycleMode)
    else None
  }

  /** Read a request frame; value-less commands must carry a zero value. */
  function DecodeRequest(f: seq<Byte>): Option<Request> {
    if !IsRequestFrame(f) then None
    else match CommandOfOpcode(f[1])
      case None => None
      case Some(c) =>
        if !CarriesValue(c) && (f[2] != 0 || f[3] != 0) then None
        else Some(Request(c, Word(f[2], f[3])))
  }

  /** The value a successful encoding put on the wire. */
  function EncodedValue(c: Command, val: Option<int>): U16
    requires Encode(c, val).Ok?
  {
    if CarriesValue(c) then val.value else 0
  }

  /** The device reads back exactly the command and value that were encoded. */
  lemma RequestRoundTrip(c: Command, val: Option<int>)
    requires Encode(c, val).Ok?
    ensures DecodeRequest(Encode(c, val).value) == Some(Request(c, EncodedValue(c, val)))
  {
  }

  /** Every frame the device accepts is the encoding of what it read. */
  lemma RequestRoundTripBack(f: seq<Byte>)
    requires DecodeRequest(f).Some?
    ensures Encode(DecodeRequest(f).value.cmd, Some(DecodeRequest(f).value.value)) == Ok(f)
  {
    var q := DecodeRequest(f).value;
    var e := Encode(q.cmd, Some(q.value));
    if CarriesValue(q.cmd) {
      assert e.value[2] == f[2] && e.value[3] == f[3];
      assert e.value[1..4] == f[1..4];
    } else {
      assert e.value[1..4] == f[1..4];
    }
    assert e.value == f;
  }

  /** The device reports "on" as a zero byte. */
  function Flag(on: bool): Byte {
    if on then 0 else 1
  }

  /** Inverse of the "_ABC" lookup. */
  function ModeCode(m: Option<Mode>): Byte {
    match m
    case None => 0
    case Some(A) => 1
    case Some(B) => 2
    case Some(C) => 3
  }

  function Hi(v: U16): Byte { v / 256 }
  function Lo(v: U16): Byte { v % 256 }

  function ReplyPayload(reply: Reply): seq<Byte> {
    match reply
    case Ack => [0, 0, 0]
    case InfoReply(m, stirOn, heatOn, limit, alarm) =>
      [ModeCode(m), Flag(stirOn), Flag(heatOn), Hi(limit), Lo(limit), Flag(alarm), 0, 0]
    case StatusReply(ss, sa, hs, ha) =>
      [Hi(ss), Lo(ss), Hi(sa), Lo(sa), Hi(hs), Lo(hs), Hi(ha), Lo(ha)]
  }

  /** The frame the device sends back for `c` with data `reply`. */
  function EncodeReply(c: Command, reply: Reply): (f: seq<Byte>)
    requires Fits(c, reply)
    ensures |f| == LenRx(c)
    ensures FrameChecks(c, f)
  {
    var body := [Opcode(c)] + ReplyPayload(reply);
    var f := [ResponseMarker] + body + [Checksum(body)];
    assert f[1..|f| - 1] == body;
    f
  }

  /** The codec reads back exactly the data the device encoded. */
  lemma ReplyRoundTrip(c: Command, reply: Reply)
    requires Fits(c, reply)
    ensures Decode(c, EncodeReply(c, reply)) == Ok(Parsed(true, reply))
  {
    var f := EncodeReply(c, reply);
    var data := f[2..|f| - 1];
    assert data == ReplyPayload(reply);
  }

  /** Replies whose flag bytes are 0 or 1 and whose unused INFO bytes are zero:
      the ones the device's own encoder produces. */
  predicate Canonical(c: Command, b: seq<Byte>)
    requires |b| >= LenRx(c)
  {
    c == Info ==> b[3] <= 1 && b[4] <= 1 && b[7] <= 1 && b[8] == 0 && b[9] == 0
  }

  lemma HiLoOfWord(h: Byte, l: Byte)
    ensures Hi(Word(h, l)) == h && Lo(Word(h, l)) == l
  {
  }

  /** A framed reply is determined by its payload. */
  lemma EncodeReplyFromPayload(c: Command, reply: Reply, b: seq<Byte>)
    requires Fits(c, reply) && |b| >= 3 && FrameChecks(c, b)
    requires ReplyPayload(reply) == b[2..|b| - 1]
    ensures EncodeReply(c, reply) == b
  {
    var body := [Opcode(c)] + ReplyPayload(reply);
    assert body == b[1..|b| - 1];
    assert b == [b[0]] + b[1..|b| - 1] + [b[|b| - 1]];
  }

  /** A canonical reply of the expected length is re-encoded byte for byte
      from the record it decodes to. */
  lemma ReplyRoundTripBack(c: Command, b: seq<Byte>)
    requires Decode(c, b).Ok? && |b| == LenRx(c) && Canonical(c, b)
    ensures EncodeReply(c, Decode(c, b).value.reply) == b
  {
    var reply := Decode(c, b).value.reply;
    var data := b[2..|b| - 1];
    match c {
      case Info =>
        HiLoOfWord(b[5], b[6]);
        assert ReplyPayload(reply) == [b[2], b[3], b[4], b[5], b[6], b[7], b[8], b[9]];
        assert data == [b[2], b[3], b[4], b[5], b[6], b[7], b[8], b[9]];
      case Status =>
        HiLoOfWord(b[2], b[3]);
        HiLoOfWord(b[4], b[5]);
        HiLoOfWord(b[6], b[7]);
        HiLoOfWord(b[8], b[9]);
        assert ReplyPayload(reply) == [b[2], b[3], b[4], b[5], b[6], b[7], b[8], b[9]];
        assert data == [b[2], b[3], b[4], b[5], b[6], b[7], b[8], b[9]];
      case _ =>
        assert data == [0, 0, 0];
    }
    EncodeReplyFromPayload(c, reply, b);
  }

  /** The data the device reports in answer to `c`. */
  function ReplyOf(d: Hotplate, c: Command): (r: Reply)
    ensures Fits(c, r)
  {
    match c
    case Info => InfoReply(Some(d.mode), d.stirOn, d.heatOn, d.heatLimit, d.heatAlarm)
    case Status => StatusReply(d.stirSet, d.stirActual, d.heatSet, d.heatActual)
    case _ => Ack
  }

  /** One exchange with the reference hotplate: a frame it cannot read gets no
      answer, so the read times out empty; any other frame is acted on and
      acknowledged. Usable as a `Link<Hotplate>`. */
  function Respond(d: Hotplate, f: seq<Byte>, size: nat): Exchange<Hotplate> {
    match DecodeRequest(f)
    case None => Exchange(d, Err(NoData))
    case Some(q) => Exchange(Perform(d, q.cmd, q.value), Ok(EncodeReply(q.cmd, ReplyOf(d, q.cmd))))
  }

  /** Sending an encodable command to the reference hotplate performs it and
      returns a reply the codec accepts as a success carrying the device's data. */
  lemma RespondToEncoded(d: Hotplate, c: Command, val: Option<int>)
    requires Encode(c, val).Ok?
    ensures var x := Respond(d, Encode(c, val).value, LenRx(c));
      && x.world == Perform(d, c, EncodedValue(c, val))
      && x.reply.Ok?
      && Decode(c, x.reply.value) == Ok(Parsed(true, ReplyOf(d, c)))
  {
    RequestRoundTrip(c, val);
    ReplyRoundTrip(c, ReplyOf(d, c));
  }
}

=== FILE: mshpro.dfy ===
/** The hotplate driver: each operation of the MSHPro class issues one or
    more transactions over a link, in order, and turns the device's toggle
    semantics into "set to target" requests. A link failure or a codec
    failure raised by one transaction ends the operation. */
module MSHPro {
  import opened Wrappers
  import opened Codec
  import opened Transport

  /** Settable ranges; temperatures in tenths of a degree (25.0 to 340.0). */
  const HeatLimitMin := 250
  const HeatLimitMax := 3400
  const StirLimitMin := 100
  const StirLimitMax := 1500

  /** What an operation raises. */
  datatype Error =
    | Comm(comm: CommError)          // raised by the codec
    | Transfer(link: TransportError) // raised by the duplex layer
    | OutOfRange                     // target outside the settable range
    | UnknownMode                    // mode letter not found in "ABC"

  /** An operation's effect: the world afterwards, the value returned or the
      error raised, and the request frames written to the link, in order. */
  datatype Run<W, T> = Run(world: W, out: Result<T, Error>, sent: seq<seq<Byte>>)

  /** `r` preceded by transactions that wrote `earlier`. */
  function After<W, T>(earlier: seq<seq<Byte>>, r: Run<W, T>): Run<W, T> {
    r.(sent := earlier + r.sent)
  }

  /** Drop the returned value, keep success or failure. */
  function Discard<W, T>(r: Run<W, T>): Run<W, ()> {
    match r.out
    case Ok(_) => Run(r.world, Ok(()), r.sent)
    case Err(e) => Run(r.world, Err(e), r.sent)
  }

  // ---------------------------------------------------------------------------
  // One transaction

  /** Encode `c`, exchange it over the link and decode the reply. An encoding
      failure raises before anything is written. */
  function Send<W>(link: Link<W>, w: W, c: Command, val: Option<int>): (r: Run<W, Parsed>)
    ensures Encode(c, val).Err? ==> r == Run(w, Err(Comm(InvalidValue)), [])
    ensures Encode(c, val).Ok? ==>
              var x := link(w, Encode(c, val).value, LenRx(c));
              && r.sent == [Encode(c, val).value]
              && r.world == x.world
              && (r.out.Ok? <==> x.reply.Ok? && Decode(c, x.reply.value).Ok?)
              && (r.out.Ok? ==> Decode(c, x.reply.value) == Ok(r.out.value))
              && (x.reply.Err? ==> r.out == Err(Transfer(x.reply.error)))
              && (x.reply.Ok? && Decode(c, x.reply.value).Err? ==>
                    r.out == Err(Comm(Decode(c, x.reply.value).error)))
    ensures r.out.Ok? ==> r.out.value.success && Fits(c, r.out.value.reply)
    ensures r.out.Err? ==> RaisedBySend(r.out.error)
  {
    match Encode(c, val)
    case Err(e) => Run(w, Err(Comm(e)), [])
    case Ok(frame) =>
      var x := link(w, frame, LenRx(c));
      match x.reply
      case Err(t) => Run(x.world, Err(Transfer(t)), [frame])
      case Ok(bytes) =>
        match Decode(c, bytes)
        case Err(e) => Run(x.world, Err(Comm(e)), [frame])
        case Ok(p) => Run(x.world, Ok(p), [frame])
  }

  /** The errors a single transaction can raise: the codec's and the link's. */
  predicate RaisedBySend(e: Error) {
    e.Comm? || e.Transfer?
  }

  /** One planned transaction. */
  datatype Step = Step(cmd: Command, val: Option<int>)

  /** Issue `steps` in order; the first failure ends the run. */
  function RunSteps<W>(link: Link<W>, w: W, steps: seq<Step>): (r: Run<W, ()>)
    ensures |r.sent| <= |steps|
    ensures forall i :: 0 <= i < |r.sent| ==> Encode(steps[i].cmd, steps[i].val) == Ok(r.sent[i])
    ensures r.out.Ok? ==> |r.sent| == |steps|
    ensures r.out.Err? ==> RaisedBySend(r.out.error)
    decreases |steps|
  {
    if steps == [] then
      Run(w, Ok(()), [])
    else
      var s := Send(link, w, steps[0].cmd, steps[0].val);
      if s.out.Err? then Run(s.world, Err(s.out.error), s.sent)
      else After(s.sent, RunSteps(link, s.world, steps[1..]))
  }

  /** Step `k` is the first to fail: the steps before it all succeeded, and
      the run ends with that step's send, raising its error. */
  ghost predicate FailsAt<W>(link: Link<W>, w: W, steps: seq<Step>, k: nat)
    requires k < |steps|
  {
    var before := RunSteps(link, w, steps[..k]);
    var s := Send(link, before.world, steps[k].cmd, steps[k].val);
    && before.out.Ok?
    && s.out.Err?
    && RunSteps(link, w, steps) == Run(s.world, Err(s.out.error), before.sent + s.sent)
  }

  /** A failure at step `k` after a successful first send is a failure at
      step `k + 1` of the whole run. */
  lemma FailsAtShift<W>(link: Link<W>, w: W, steps: seq<Step>, k: nat)
    requires |steps| > 0 && Send(link, w, steps[0].cmd, steps[0].val).out.Ok?
    requires k < |steps| - 1
    requires FailsAt(link, Send(link, w, steps[0].cmd, steps[0].val).world, steps[1..], k)
    ensures FailsAt(link, w, steps, k + 1)
  {
    var s := Send(link, w, steps[0].cmd, steps[0].val);
    var rest := steps[1..];
    var prefix := steps[..k + 1];
    assert prefix[0] == steps[0] && prefix[1..] == rest[..k];
    assert steps[k + 1] == rest[k];
    var before := RunSteps(link, s.world, rest[..k]);
    var f := Send(link, before.world, rest[k].cmd, rest[k].val);
    assert RunSteps(link, w, prefix) == After(s.sent, before);
    assert RunSteps(link, s.world, rest) == Run(f.world, Err(f.out.error), before.sent + f.sent);
    assert RunSteps(link, w, steps).sent == s.sent + (before.sent + f.sent);
  }

  /** A failed run raises the error of its first failing send. */
  lemma {:induction false} RunStepsFirstFailure<W>(link: Link<W>, w: W, steps: seq<Step>)
    requires RunSteps(link, w, steps).out.Err?
    ensures exists k :: 0 <= k < |steps| && FailsAt(link, w, steps, k)
    decreases |steps|
  {
    var s := Send(link, w, steps[0].cmd, steps[0].val);
    if s.out.Err? {
      assert steps[..0] == [];
      assert FailsAt(link, w, steps, 0);
    } else {
      RunStepsFirstFailure(link, s.world, steps[1..]);
      var k :| 0 <= k < |steps| - 1 && FailsAt(link, s.world, steps[1..], k);
      FailsAtShift(link, w, steps, k);
    }
  }

  // ---------------------------------------------------------------------------
  // ping

  /** True exactly when the PING exchange decodes as a success; never raises. */
  function PingRun<W>(link: Link<W>, w: W): (r: Run<W, bool>)
    ensures r.out.Ok?
    ensures var x := link(w, Encode(Ping, None).value, LenRx(Ping));
            r.out.value <==> x.reply.Ok? && Decode(Ping, x.reply.value).Ok?
  {
    var s := Send(link, w, Ping, None);
    Run(s.world, Ok(s.out.Ok? && s.out.value.success), s.sent)
  }

  // ---------------------------------------------------------------------------
  // status

  /** A set value as the status reports it: a number, or "Off" in the normalised view. */
  datatype Setting = Off | Set(value: U16)

  /** The merged STATUS and INFO record. */
  datatype StatusView = StatusView(
    success: bool,
    stirSet: Setting, stirActual: U16, heatSet: Setting, heatActual: U16,
    stirOn: bool, heatOn: bool, heatLimit: U16, mode: Option<Mode>, heatAlarm: bool)

  /** The STATUS fields updated with the INFO fields. */
  function Merge(s: Parsed, i: Parsed): StatusView
    requires s.reply.StatusReply? && i.reply.InfoReply?
  {
    StatusView(i.success,
               Set(s.reply.stirSet), s.reply.stirActual, Set(s.reply.heatSet), s.reply.heatActual,
               i.reply.stirOn, i.reply.heatOn, i.reply.heatLimit, i.reply.mode, i.reply.heatAlarm)
  }

  /** The normalised view: a channel that is off reports "Off" as its set value. */
  function Normalise(v: StatusView): (n: StatusView)
    ensures v.heatSet.Set? && v.stirSet.Set? ==> Consistent(n)
    ensures n.heatOn ==> n.heatSet == v.heatSet
    ensures n.stirOn ==> n.stirSet == v.stirSet
    ensures n.(heatSet := v.heatSet, stirSet := v.stirSet) == v
  {
    v.(heatSet := if v.heatOn then v.heatSet else Off,
       stirSet := if v.stirOn then v.stirSet else Off)
  }

  /** Request frames of the status read. */
  const StatusFrames: seq<seq<Byte>> := [Encode(Status, None).value, Encode(Info, None).value]

  /** A set value is "Off" exactly when its channel is off. */
  predicate Consistent(v: StatusView) {
    (v.heatSet == Off <==> !v.heatOn) && (v.stirSet == Off <==> !v.stirOn)
  }

  /** Issue STATUS, then INFO, and merge; normalise unless `raw`. */
  function ReadStatus<W>(link: Link<W>, w: W, raw: bool): (r: Run<W, StatusView>)
    ensures r.sent <= StatusFrames && r.sent != []
    ensures r.out.Ok? ==> r.sent == StatusFrames && r.out.value.success
    ensures r.out.Ok? && raw ==> r.out.value.heatSet.Set? && r.out.value.stirSet.Set?
    ensures r.out.Ok? && !raw ==> Consistent(r.out.value)
    ensures r.out.Err? ==> RaisedBySend(r.out.error)
    ensures var s := Send(link, w, Status, None);
            s.out.Err? ==> r.sent == [Encode(Status, None).value] && r.out == Err(s.out.error)
    ensures var s := Send(link, w, Status, None);
            var i := Send(link, s.world, Info, None);
            s.out.Ok? && i.out.Err? ==> r.sent == StatusFrames && r.out == Err(i.out.error)
  {
    var s := Send(link, w, Status, None);
    if s.out.Err? then
      Run(s.world, Err(s.out.error), s.sent)
    else
      var i := Send(link, s.world, Info, None);
      if i.out.Err? then
        Run(i.world, Err(i.out.error), s.sent + i.sent)
      else
        var v := Merge(s.out.value, i.out.value);
        Run(i.world, Ok(if raw then v else Normalise(v)), s.sent + i.sent)
  }

  /** The set value and on flag of a value-carrying channel. */
  function SettingOf(v: StatusView, c: Command): Setting
    requires CarriesValue(c)
  {
    if c == Heat then v.heatSet else v.stirSet
  }

  function IsOn(v: StatusView, c: Command): bool
    requires CarriesValue(c)
  {
    if c == Heat then v.heatOn else v.stirOn
  }

  // ---------------------------------------------------------------------------
  // Turning channels off

  predicate AllChannels(channels: seq<Command>) {
    forall i :: 0 <= i < |channels| ==> CarriesValue(channels[i])
  }

  /** The sends that switch `channels` off: the current set value, once, to
      each channel that is on. */
  function OffPlan(v: StatusView, channels: seq<Command>): (plan: seq<Step>)
    requires AllChannels(channels) && Consistent(v)
    ensures |plan| <= |channels|
    decreases |channels|
  {
    if channels == [] then []
    else
      var c := channels[0];
      (if IsOn(v, c) then [Step(c, Some(SettingOf(v, c).value))] else [])
      + OffPlan(v, channels[1..])
  }

  /** The per-channel loop of the off helper, on the status read at its start. */
  function OffEach<W>(link: Link<W>, w: W, v: StatusView, channels: seq<Command>): (r: Run<W, ()>)
    requires AllChannels(channels) && Consistent(v)
    decreases |channels|
  {
    if channels == [] then
      Run(w, Ok(()), [])
    else
      var c := channels[0];
      if !IsOn(v, c) then
        OffEach(link, w, v, channels[1..])
      else
        var s := Send(link, w, c, Some(SettingOf(v, c).value));
        if s.out.Err? then Run(s.world, Err(s.out.error), s.sent)
        else After(s.sent, OffEach(link, s.world, v, channels[1..]))
  }

  /** Read the normalised status, then switch off each listed channel that is on. */
  function OffRun<W>(link: Link<W>, w: W, channels: seq<Command>): (r: Run<W, ()>)
    requires AllChannels(channels)
    ensures r.out.Ok? ==>
              && ReadStatus(link, w, false).out.Ok?
              && |r.sent| == 2 + |OffPlan(ReadStatus(link, w, false).out.value, channels)|
    ensures var st := ReadStatus(link, w, false);
            st.out.Err? ==> r.out == Err(st.out.error) && r.sent == st.sent
    ensures var st := ReadStatus(link, w, false);
            st.out.Ok? ==> r == After(st.sent, RunSteps(link, st.world, OffPlan(st.out.value, channels)))
    ensures r.out.Err? ==> RaisedBySend(r.out.error)
  {
    var st := ReadStatus(link, w, false);
    if st.out.Err? then
      Run(st.world, Err(st.out.error), st.sent)
    else
      OffEachFollowsPlan(link, st.world, st.out.value, channels);
      After(st.sent, OffEach(link, st.world, st.out.value, channels))
  }

  /** The off loop issues exactly the planned sends. */
  lemma {:induction false} OffEachFollowsPlan<W>(link: Link<W>, w: W, v: StatusView, channels: seq<Command>)
    requires AllChannels(channels) && Consistent(v)
    ensures OffEach(link, w, v, channels) == RunSteps(link, w, OffPlan(v, channels))
    decreases |channels|
  {
    if channels != [] {
      var c := channels[0];
      var rest := OffPlan(v, channels[1..]);
      if IsOn(v, c) {
        var plan := OffPlan(v, channels);
        assert plan[0] == Step(c, Some(SettingOf(v, c).value)) && plan[1..] == rest;
        var s := Send(link, w, c, Some(SettingOf(v, c).value));
        if s.out.Ok? {
          OffEachFollowsPlan(link, s.world, v, channels[1..]);
        }
      } else {
        assert OffPlan(v, channels) == rest;
        OffEachFollowsPlan(link, w, v, channels[1..]);
      }
    }
  }

  // ---------------------------------------------------------------------------
  // Setting a channel to a target

  /** The values to send to a channel holding `setValue`, on or off, so that
      it ends on at `target`: each send stores the value and toggles the channel. */
  function SetvalPlan(setValue: int, on: bool, target: int): (plan: seq<int>)
    ensures forall i :: 0 <= i < |plan| ==> plan[i] == target
    ensures plan == [] <==> setValue == target && on
    ensures |plan| == 2 <==> setValue != target && on
    ensures |plan| <= 2
  {
    if setValue == target then
      if on then [] else [setValue]
    else
      if on then [target, target] else [target]
  }

  /** The value sends of a plan as transactions on channel `c`. */
  function ValueSteps(c: Command, values: seq<int>): (steps: seq<Step>)
    ensures |steps| == |values|
    ensures forall i :: 0 <= i < |values| ==> steps[i] == Step(c, Some(values[i]))
  {
    seq(|values|, i requires 0 <= i < |values| => Step(c, Some(values[i])))
  }

  /** Switch channel `c` on at `val`, or at its current set value when `val`
      is missing. Returns true on success; a failed send raises. */
  function SetvalRun<W>(link: Link<W>, w: W, c: Command, val: Option<int>): (r: Run<W, bool>)
    requires CarriesValue(c)
    ensures r.out.Ok? ==> r.out.value
    ensures StatusFrames <= r.sent || r.out.Err?
    ensures |r.sent| <= 4
    ensures var st := ReadStatus(link, w, true);
            st.out.Err? ==> r.out == Err(st.out.error) && r.sent == st.sent
    ensures r.out.Err? ==> RaisedBySend(r.out.error)
  {
    var st := ReadStatus(link, w, true);
    if st.out.Err? then
      Run(st.world, Err(st.out.error), st.sent)
    else
      var setValue := SettingOf(st.out.value, c).value;
      var onStatus := IsOn(st.out.value, c);
      var target := if val.None? then setValue else val.value;
      if setValue == target then
        if onStatus then
          Run(st.world, Ok(true), st.sent)
        else
          var s := Send(link, st.world, c, Some(setValue));
          if s.out.Err? then Run(s.world, Err(s.out.error), st.sent + s.sent)
          else Run(s.world, Ok(s.out.value.success), st.sent + s.sent)
      else
        var s1 := Send(link, st.world, c, Some(target));
        if s1.out.Err? then
          Run(s1.world, Err(s1.out.error), st.sent + s1.sent)
        else if !s1.out.value.success || !onStatus then
          Run(s1.world, Ok(s1.out.value.success), st.sent + s1.sent)
        else
          var s2 := Send(link, s1.world, c, Some(target));
          if s2.out.Err? then Run(s2.world, Err(s2.out.error), st.sent + s1.sent + s2.sent)
          else Run(s2.world, Ok(s2.out.value.success), st.sent + s1.sent + s2.sent)
  }

  // ---------------------------------------------------------------------------
  // heat and stir

  /** Python truthiness of the argument: a missing value or zero is false. */
  predicate Falsy(val: Option<int>) {
    val.None? || val.value == 0
  }

  /** `heat`: a falsy value switches heating off; a value outside the range
      switches heating off and raises; any failure while setting switches
      heating off once more before it is re-raised. */
  function HeatRun<W>(link: Link<W>, w: W, val: Option<int>): (r: Run<W, ()>)
    ensures r.out.Ok? ==> Falsy(val) || HeatLimitMin <= val.value <= HeatLimitMax
    ensures Falsy(val) ==> r == OffRun(link, w, [Heat])
    ensures !Falsy(val) && HeatLimitMin <= val.value <= HeatLimitMax && SetvalRun(link, w, Heat, val).out.Ok? ==>
              r == Discard(SetvalRun(link, w, Heat, val))
    ensures r.out == Err(OutOfRange) ==> !Falsy(val) && !(HeatLimitMin <= val.value <= HeatLimitMax)
    ensures r.out.Err? && r.out.error != OutOfRange ==> RaisedBySend(r.out.error)
    ensures !Falsy(val) && !(HeatLimitMin <= val.value <= HeatLimitMax) ==>
              var off1 := OffRun(link, w, [Heat]);
              var off2 := OffRun(link, off1.world, [Heat]);
              && r.sent == off1.sent + off2.sent
              && r.world == off2.world
              && r.out == (if off2.out.Err? then Err(off2.out.error)
                           else if off1.out.Err? then Err(off1.out.error)
                           else Err(OutOfRange))
  {
    if Falsy(val) then
      OffRun(link, w, [Heat])
    else
      var t := val.value;
      var attempt :=
        if !(HeatLimitMin <= t <= HeatLimitMax) then
          var off := OffRun(link, w, [Heat]);
          if off.out.Err? then off else off.(out := Err(OutOfRange))
        else
          Discard(SetvalRun(link, w, Heat, Some(t)));
      if attempt.out.Ok? then
        attempt
      else
        var off := OffRun(link, attempt.world, [Heat]);
        if off.out.Err? then After(attempt.sent, off)
        else Run(off.world, Err(attempt.out.error), attempt.sent + off.sent)
  }

  /** `stir`: a falsy value switches stirring off; a value outside the range
      raises before anything is sent. */
  function StirRun<W>(link: Link<W>, w: W, val: Option<int>): (r: Run<W, ()>)
    ensures !Falsy(val) && !(StirLimitMin <= val.value <= StirLimitMax) ==>
              r == Run(w, Err(OutOfRange), [])
    ensures r.out.Ok? ==> Falsy(val) || StirLimitMin <= val.value <= StirLimitMax
    ensures r.out == Err(OutOfRange) <==> !Falsy(val) && !(StirLimitMin <= val.value <= StirLimitMax)
    ensures r.out.Err? && r.out.error != OutOfRange ==> RaisedBySend(r.out.error)
    ensures Falsy(val) ==> r == OffRun(link, w, [Stir])
    ensures !Falsy(val) && StirLimitMin <= val.value <= StirLimitMax ==> r == Discard(SetvalRun(link, w, Stir, val))
  {
    if Falsy(val) then
      OffRun(link, w, [Stir])
    else if !(StirLimitMin <= val.value <= StirLimitMax) then
      Run(w, Err(OutOfRange), [])
    else
      Discard(SetvalRun(link, w, Stir, val))
  }

  // ---------------------------------------------------------------------------
  // mode

  /** `s` occurs in `hay` at position `j`. */
  predicate OccursAt(hay: string, s: string, j: nat) {
    j + |s| <= |hay| && hay[j..j + |s|] == s
  }

  /** Python's `hay.index(s)` searching from position `i`: the first position
      at which `s` occurs as a substring. */
  function FindFrom(hay: string, s: string, i: nat): (r: Option<nat>)
    ensures r.Some? ==> i <= r.value && OccursAt(hay, s, r.value)
    ensures r.Some? ==> forall j :: i <= j < r.value ==> !OccursAt(hay, s, j)
    ensures r.None? ==> forall j :: i <= j ==> !OccursAt(hay, s, j)
    decreases |hay| - i
  {
    if i + |s| > |hay| then None
    else if hay[i..i + |s|] == s then Some(i)
    else FindFrom(hay, s, i + 1)
  }

  /** `k` mode-cycle transactions. */
  function CyclePlan(k: nat): (steps: seq<Step>)
    ensures |steps| == k
    ensures forall i :: 0 <= i < k ==> steps[i] == Step(CycleMode, None)
  {
    seq(k, i => Step(CycleMode, None))
  }

  /** Number of forward steps from mode `current` to position `target` of "ABC". */
  function ModeSteps(current: Mode, target: nat): nat {
    (3 + target - ModeIndex(current)) % 3
  }

  /** `mode`: look the target letter up in "ABC", read the current mode with
      INFO, then cycle forward until the target is reached. */
  function ModeRun<W>(link: Link<W>, w: W, target: string): (r: Run<W, ()>)
    ensures FindFrom("ABC", target, 0).None? ==> r == Run(w, Err(UnknownMode), [])
    ensures FindFrom("ABC", target, 0).Some? ==> r.sent != [] && r.sent[0] == Encode(Info, None).value
    ensures forall i :: 1 <= i < |r.sent| ==> r.sent[i] == Encode(CycleMode, None).value
    ensures r.out.Ok? ==>
              var x := Send(link, w, Info, None);
              && x.out.Ok? && x.out.value.reply.mode.Some?
              && |r.sent| == 1 + ModeSteps(x.out.value.reply.mode.value, FindFrom("ABC", target, 0).value)
    ensures r.out.Ok? ==> 1 <= |r.sent| <= 3
    ensures var x := Send(link, w, Info, None);
            r.out == Err(UnknownMode)
            <==> FindFrom("ABC", target, 0).None? || (x.out.Ok? && x.out.value.reply.mode.None?)
    ensures r.out.Err? && r.out.error != UnknownMode ==> RaisedBySend(r.out.error)
    ensures var x := Send(link, w, Info, None);
            FindFrom("ABC", target, 0).Some? && x.out.Err? ==> r.out == Err(x.out.error)
    ensures var x := Send(link, w, Info, None);
            FindFrom("ABC", target, 0).Some? && x.out.Ok? && x.out.value.reply.mode.Some? ==>
              r == After(x.sent, RunSteps(link, x.world,
                                          CyclePlan(ModeSteps(x.out.value.reply.mode.value, FindFrom("ABC", target, 0).value))))
  {
    match FindFrom("ABC", target, 0)
    case None => Run(w, Err(UnknownMode), [])
    case Some(t) =>
      var i := Send(link, w, Info, None);
      if i.out.Err? then
        Run(i.world, Err(i.out.error), i.sent)
      else
        match i.out.value.reply.mode
        case None => Run(i.world, Err(UnknownMode), i.sent)
        case Some(m) => After(i.sent, RunSteps(link, i.world, CyclePlan(ModeSteps(m, t))))
  }
}

=== FILE: plan_properties.dfy ===
/** The sequencer's plans folded over the toggle model of the device: the
    sends each operation chooses reach the state it promises, touch nothing
    else, and are as few as the toggle semantics allow. */
module PlanProperties {
  import opened Codec
  import opened Device
  import opened MSHPro

  /** Folding the plan over the device leaves the channel on at the target,
      with the other channel and the mode unchanged. */
  lemma SetvalPlanReachesTarget(d: Hotplate, c: Command, target: U16)
    requires CarriesValue(c)
    ensures var plan: seq<U16> := SetvalPlan(SetOf(d, c), OnOf(d, c), target);
            SendAll(d, c, plan) == WithChannel(d, c, target, true)
  {
    var plan: seq<U16> := SetvalPlan(SetOf(d, c), OnOf(d, c), target);
    SendAllEffect(d, c, plan);
  }

  /** No shorter sequence of value sends reaches "on at the target": the
      second send when the channel was on is forced by the toggle semantics. */
  lemma SetvalPlanMinimal(d: Hotplate, c: Command, target: U16, values: seq<U16>)
    requires CarriesValue(c)
    requires SetOf(SendAll(d, c, values), c) == target && OnOf(SendAll(d, c, values), c)
    ensures |values| >= |SetvalPlan(SetOf(d, c), OnOf(d, c), target)|
  {
    SendAllEffect(d, c, values);
  }

  /** The four cases of the set-to-target table. */
  lemma SetvalPlanTable()
    ensures SetvalPlan(2000, true, 2000) == []
    ensures SetvalPlan(2000, false, 2000) == [2000]
    ensures SetvalPlan(2000, false, 2500) == [2500]
    ensures SetvalPlan(2000, true, 2500) == [2500, 2500]
  {
  }

  /** Cycling the planned number of times reaches the target position, and
      no smaller number of cycles does. */
  lemma {:induction false} ModeStepsReachTarget(m: Mode, t: nat)
    requires t < 3
    ensures ModeIndex(Cycle(m, ModeSteps(m, t))) == t
    ensures forall k :: 0 <= k < ModeSteps(m, t) ==> ModeIndex(Cycle(m, k)) != t
    ensures ModeSteps(m, t) == 0 <==> ModeIndex(m) == t
  {
    CycleIndex(m, ModeSteps(m, t));
    forall k | 0 <= k < ModeSteps(m, t)
      ensures ModeIndex(Cycle(m, k)) != t
    {
      CycleIndex(m, k);
    }
  }

  /** Mode examples: nothing to do at the target, two steps from A to C. */
  lemma ModeStepsExamples()
    ensures ModeSteps(A, 0) == 0
    ensures ModeSteps(A, 2) == 2
    ensures ModeSteps(C, 0) == 1
  {
  }

  /** The number of off sends: one for each listed channel that is on. */
  lemma {:induction false} OffPlanCount(v: StatusView, channels: seq<Command>)
    requires AllChannels(channels) && Consistent(v)
    requires forall i, j :: 0 <= i < j < |channels| ==> channels[i] != channels[j]
    ensures |OffPlan(v, channels)|
            == (if Heat in channels && v.heatOn then 1 else 0) + (if Stir in channels && v.stirOn then 1 else 0)
    decreases |channels|
  {
    if channels != [] {
      var rest := channels[1..];
      assert channels[0] !in rest;
      assert forall x :: x in channels <==> x == channels[0] || x in rest;
      OffPlanCount(v, rest);
    }
  }
}

=== FILE: reference_runs.dfy ===
/** The sequencer's operations proved against the reference hotplate: every
    exchange succeeds, so each operation reaches the state it promises, with
    the number of transactions its plan predicts. */
module ReferenceRuns {
  import opened Wrappers
  import opened Codec
  import opened Transport
  import opened Device
  import opened MSHPro
  import opened PlanProperties
  import opened SequencerProperties

  /** One transaction with the reference hotplate. */
  lemma SendToReference(d: Hotplate, c: Command, val: Option<int>)
    requires Encode(c, val).Ok?
    ensures Send(Respond, d, c, val)
            == Run(Perform(d, c, EncodedValue(c, val)), Ok(Parsed(true, ReplyOf(d, c))), [Encode(c, val).value])
  {
    RespondToEncoded(d, c, val);
  }

  /** What the raw status of the reference hotplate reports. */
  function RawView(d: Hotplate): StatusView {
    StatusView(true, Set(d.stirSet), d.stirActual, Set(d.heatSet), d.heatActual,
               d.stirOn, d.heatOn, d.heatLimit, Some(d.mode), d.heatAlarm)
  }

  lemma ReadStatusOfReference(d: Hotplate, raw: bool)
    ensures ReadStatus(Respond, d, raw)
            == Run(d, Ok(if raw then RawView(d) else Normalise(RawView(d))), StatusFrames)
  {
    SendToReference(d, Status, None);
    SendToReference(d, Info, None);
  }

  /** Ping succeeds and changes nothing. */
  lemma PingOnReference(d: Hotplate)
    ensures PingRun(Respond, d) == Run(d, Ok(true), [Encode(Ping, None).value])
  {
    SendToReference(d, Ping, None);
  }

  lemma {:induction false} RunValuesOnReference(d: Hotplate, c: Command, values: seq<U16>)
    requires CarriesValue(c)
    ensures var r := RunSteps(Respond, d, ValueSteps(c, values));
            r.out == Ok(()) && r.world == SendAll(d, c, values) && |r.sent| == |values|
    decreases |values|
  {
    if values != [] {
      SendToReference(d, c, Some(values[0]));
      assert ValueSteps(c, values)[1..] == ValueSteps(c, values[1..]);
      RunValuesOnReference(Perform(d, c, values[0]), c, values[1..]);
    }
  }

  /** Setting a channel of the reference hotplate leaves it on at the target
      (the current set value when none is given), changes nothing else and
      issues the status read plus the planned sends. */
  lemma SetvalOnReference(d: Hotplate, c: Command, val: Option<int>)
    requires CarriesValue(c)
    requires val.Some? ==> 0 <= val.value <= WordMax
    ensures var target: U16 := if val.None? then SetOf(d, c) else val.value;
            var r := SetvalRun(Respond, d, c, val);
            && r.out == Ok(true)
            && r.world == WithChannel(d, c, target, true)
            && |r.sent| == 2 + |SetvalPlan(SetOf(d, c), OnOf(d, c), target)|
  {
    var target: U16 := if val.None? then SetOf(d, c) else val.value;
    ReadStatusOfReference(d, true);
    SetvalFollowsPlan(Respond, d, c, val);
    var plan: seq<U16> := SetvalPlan(SetOf(d, c), OnOf(d, c), target);
    assert PlanFor(RawView(d), c, val) == plan;
    RunValuesOnReference(d, c, plan);
    SetvalPlanReachesTarget(d, c, target);
  }

  // ---------------------------------------------------------------------------
  // Turning off

  /** The device with the listed channels switched off, set values kept. */
  function TurnedOff(d: Hotplate, channels: seq<Command>): Hotplate {
    d.(heatOn := d.heatOn && Heat !in channels, stirOn := d.stirOn && Stir !in channels)
  }

  predicate Distinct(channels: seq<Command>) {
    forall i, j :: 0 <= i < j < |channels| ==> channels[i] != channels[j]
  }

  /** The status `v` still describes channel `c` of the device `d`. */
  predicate SnapshotOf(v: StatusView, d: Hotplate, c: Command) {
    && CarriesValue(c)
    && IsOn(v, c) == OnOf(d, c)
    && (IsOn(v, c) ==> SettingOf(v, c) == Set(SetOf(d, c)))
  }

  /** Performing a send on the first listed channel keeps the status a
      snapshot of the remaining, distinct channels. */
  lemma SnapshotOfRest(v: StatusView, d: Hotplate, d': Hotplate, channels: seq<Command>)
    requires |channels| > 0 && AllChannels(channels) && Distinct(channels)
    requires forall i :: 0 <= i < |channels| ==> SnapshotOf(v, d, channels[i])
    requires d' == d || d' == Perform(d, channels[0], SetOf(d, channels[0]))
    ensures forall i :: 0 <= i < |channels| - 1 ==> SnapshotOf(v, d', channels[1..][i])
  {
    var c := channels[0];
    forall i | 0 <= i < |channels| - 1
      ensures SnapshotOf(v, d', channels[1..][i])
    {
      assert channels[1..][i] == channels[i + 1] && channels[i + 1] != c;
      assert SnapshotOf(v, d, channels[i + 1]);
    }
  }

  lemma {:induction false} OffEachOnReference(d: Hotplate, v: StatusView, channels: seq<Command>)
    requires AllChannels(channels) && Consistent(v) && Distinct(channels)
    requires forall i :: 0 <= i < |channels| ==> SnapshotOf(v, d, channels[i])
    ensures var r := OffEach(Respond, d, v, channels);
            r.out == Ok(()) && r.world == TurnedOff(d, channels)
    decreases |channels|
  {
    if channels != [] {
      var c := channels[0];
      var rest := channels[1..];
      assert c !in rest;
      assert forall x :: x in channels <==> x == c || x in rest;
      assert SnapshotOf(v, d, c);
      if IsOn(v, c) {
        var d' := Perform(d, c, SetOf(d, c));
        SendToReference(d, c, Some(SetOf(d, c)));
        SnapshotOfRest(v, d, d', channels);
        OffEachOnReference(d', v, rest);
        assert OffEach(Respond, d, v, channels)
               == After([Encode(c, Some(SetOf(d, c))).value], OffEach(Respond, d', v, rest));
      } else {
        SnapshotOfRest(v, d, d, channels);
        OffEachOnReference(d, v, rest);
        assert OffEach(Respond, d, v, channels) == OffEach(Respond, d, v, rest);
      }
    }
  }

  /** Switching off distinct channels leaves each of them off at its old set
      value, changes nothing else, and sends once per listed channel that was on. */
  lemma OffOnReference(d: Hotplate, channels: seq<Command>)
    requires AllChannels(channels) && Distinct(channels)
    ensures var r := OffRun(Respond, d, channels);
            && r.out == Ok(())
            && r.world == TurnedOff(d, channels)
            && |r.sent| == 2 + (if Heat in channels && d.heatOn then 1 else 0)
                             + (if Stir in channels && d.stirOn then 1 else 0)
  {
    OffRunOfReference(d, channels);
    OffLoopOnReference(d, channels);
  }

  /** The off loop over the reference hotplate's normalised status switches
      the listed channels off, sending once per listed channel that was on. */
  lemma OffLoopOnReference(d: Hotplate, channels: seq<Command>)
    requires AllChannels(channels) && Distinct(channels)
    ensures var e := OffEach(Respond, d, Normalise(RawView(d)), channels);
            && e.out == Ok(())
            && e.world == TurnedOff(d, channels)
            && |e.sent| == (if Heat in channels && d.heatOn then 1 else 0)
                           + (if Stir in channels && d.stirOn then 1 else 0)
  {
    var v := Normalise(RawView(d));
    assert forall i :: 0 <= i < |channels| ==> SnapshotOf(v, d, channels[i]);
    OffEachOnReference(d, v, channels);
    OffEachFollowsPlan(Respond, d, v, channels);
    OffPlanCount(v, channels);
  }

  /** Off on the reference hotplate is the status read followed by the off
      loop over the normalised status, which issues exactly the planned sends. */
  lemma OffRunOfReference(d: Hotplate, channels: seq<Command>)
    requires AllChannels(channels)
    ensures var v := Normalise(RawView(d));
            var e := OffEach(Respond, d, v, channels);
            && Consistent(v)
            && OffRun(Respond, d, channels) == After(StatusFrames, e)
            && (e.out.Ok? ==> |e.sent| == |OffPlan(v, channels)|)
  {
    ReadStatusOfReference(d, false);
    var v := Normalise(RawView(d));
    OffEachFollowsPlan(Respond, d, v, channels);
  }

  // ---------------------------------------------------------------------------
  // heat, stir, mode

  /** An out-of-range `heat` on the reference hotplate: two heat-offs, the
      second finding heat already off, then OutOfRange. */
  lemma HeatOutOfRangeOnReference(d: Hotplate, val: Option<int>)
    requires !Falsy(val) && !(HeatLimitMin <= val.value <= HeatLimitMax)
    ensures var r := HeatRun(Respond, d, val);
            && r.out == Err(OutOfRange)
            && r.world == TurnedOff(d, [Heat])
            && |r.sent| == 4 + (if d.heatOn then 1 else 0)
  {
    assert Distinct([Heat]) && AllChannels([Heat]);
    var d1 := TurnedOff(d, [Heat]);
    OffOnReference(d, [Heat]);
    OffOnReference(d1, [Heat]);
    assert TurnedOff(d1, [Heat]) == d1;
    var off1 := OffRun(Respond, d, [Heat]);
    var off2 := OffRun(Respond, off1.world, [Heat]);
    assert off1.out.Ok? && off1.world == d1 && off2.out.Ok? && off2.world == d1;
    assert |off1.sent + off2.sent| == 4 + (if d.heatOn then 1 else 0);
  }

  /** `heat` on the reference hotplate: off for a falsy value, on at the
      target inside the range, and off with OutOfRange raised outside it. */
  lemma HeatOnReference(d: Hotplate, val: Option<int>)
    ensures Falsy(val) ==>
              HeatRun(Respond, d, val).out == Ok(()) && HeatRun(Respond, d, val).world == TurnedOff(d, [Heat])
    ensures !Falsy(val) && HeatLimitMin <= val.value <= HeatLimitMax ==>
              && HeatRun(Respond, d, val).out == Ok(())
              && HeatRun(Respond, d, val).world == WithChannel(d, Heat, val.value, true)
    ensures !Falsy(val) && !(HeatLimitMin <= val.value <= HeatLimitMax) ==>
              && HeatRun(Respond, d, val).out == Err(OutOfRange)
              && HeatRun(Respond, d, val).world == TurnedOff(d, [Heat])
              && |HeatRun(Respond, d, val).sent| == 4 + (if d.heatOn then 1 else 0)
  {
    if Falsy(val) {
      assert Distinct([Heat]) && AllChannels([Heat]);
      OffOnReference(d, [Heat]);
    } else if HeatLimitMin <= val.value <= HeatLimitMax {
      SetvalOnReference(d, Heat, val);
    } else {
      HeatOutOfRangeOnReference(d, val);
    }
  }

  /** `stir` on the reference hotplate: off for a falsy value, on at the
      target inside the range; outside it nothing is sent (see StirRun). */
  lemma StirOnReference(d: Hotplate, val: Option<int>)
    ensures Falsy(val) ==>
              StirRun(Respond, d, val).out == Ok(()) && StirRun(Respond, d, val).world == TurnedOff(d, [Stir])
    ensures !Falsy(val) && StirLimitMin <= val.value <= StirLimitMax ==>
              && StirRun(Respond, d, val).out == Ok(())
              && StirRun(Respond, d, val).world == WithChannel(d, Stir, val.value, true)
  {
    assert Distinct([Stir]) && AllChannels([Stir]);
    OffOnReference(d, [Stir]);
    if !Falsy(val) && StirLimitMin <= val.value <= StirLimitMax {
      SetvalOnReference(d, Stir, val);
    }
  }

  /** The mode at position `t` of "ABC". */
  function ModeAt(t: nat): (m: Mode)
    requires t < 3
    ensures ModeIndex(m) == t
  {
    if t == 0 then A else if t == 1 then B else C
  }

  /** Any string `"ABC".index` accepts yields a position 0, 1 or 2. */
  lemma FoundInABC(s: string)
    requires FindFrom("ABC", s, 0).Some?
    ensures FindFrom("ABC", s, 0).value < 3
  {
    if s == [] {
      assert OccursAt("ABC", s, 0);
    }
  }

  lemma ModeLetters()
    ensures FindFrom("ABC", "A", 0) == Some(0)
    ensures FindFrom("ABC", "B", 0) == Some(1)
    ensures FindFrom("ABC", "C", 0) == Some(2)
    ensures FindFrom("ABC", "D", 0) == None
  {
    assert "ABC"[0..1] == "A";
    assert "ABC"[1..2] == "B";
    assert "ABC"[2..3] == "C";
  }

  lemma {:induction false} RunCyclesOnReference(d: Hotplate, k: nat)
    ensures var r := RunSteps(Respond, d, CyclePlan(k));
            r.out == Ok(()) && r.world == CycleAll(d, k) && |r.sent| == k
    decreases k
  {
    if k > 0 {
      SendToReference(d, CycleMode, None);
      assert CyclePlan(k)[1..] == CyclePlan(k - 1);
      RunCyclesOnReference(Perform(d, CycleMode, 0), k - 1);
    }
  }

  /** `mode` on the reference hotplate reaches the requested mode, changes
      nothing else, and issues INFO plus the computed number of cycles. */
  lemma ModeOnReference(d: Hotplate, s: string)
    requires FindFrom("ABC", s, 0).Some?
    ensures var t := FindFrom("ABC", s, 0).value;
            var r := ModeRun(Respond, d, s);
            && t < 3
            && r.out == Ok(())
            && r.world == d.(mode := ModeAt(t))
            && |r.sent| == 1 + ModeSteps(d.mode, t)
  {
    var t := FindFrom("ABC", s, 0).value;
    FoundInABC(s);
    SendToReference(d, Info, None);
    var k := ModeSteps(d.mode, t);
    RunCyclesOnReference(d, k);
    CycleAllEffect(d, k);
    ModeStepsReachTarget(d.mode, t);
    assert Cycle(d.mode, k) == ModeAt(t);
  }
}

=== FILE: sequencer_properties.dfy ===
/** Properties of the sequencer that hold over every link: what ping reports,
    how the normalised status relates to the raw one, and that setting a
    channel issues exactly its plan, stopping at the first failure. */
module SequencerProperties {
  import opened Wrappers
  import opened Codec
  import opened CodecProperties
  import opened Transport
  import opened MSHPro

  lemma PingChecksum()
    ensures Checksum([0xA0, 0, 0, 0]) == 0xA0
  {
    var s: seq<Byte> := [0xA0, 0, 0, 0];
    assert s[1..] == [0, 0, 0] && s[1..][1..] == [0, 0] && s[1..][1..][1..] == [0];
    assert s[1..][1..][1..][1..] == [];
  }

  /** Ping answers true exactly when the device sent back FD A0 00 00 00 A0. */
  lemma PingExact<W>(link: Link<W>, w: W)
    ensures var x := link(w, Encode(Ping, None).value, LenRx(Ping));
            PingRun(link, w).out.value <==> x.reply == Ok([0xFD, 0xA0, 0x00, 0x00, 0x00, 0xA0])
  {
    var x := link(w, Encode(Ping, None).value, LenRx(Ping));
    PingChecksum();
    var good: seq<Byte> := [0xFD, 0xA0, 0x00, 0x00, 0x00, 0xA0];
    assert good[1..|good| - 1] == [0xA0, 0, 0, 0];
    AckClassification(Ping, good);
    if x.reply.Ok? && Decode(Ping, x.reply.value).Ok? {
      var b := x.reply.value;
      AckClassification(Ping, b);
      assert b[1..|b| - 1] == [0xA0, 0, 0, 0];
      assert b == good;
    }
  }

  /** The normalised status is the raw status with stale set values of
      switched-off channels replaced by "Off"; the transactions are the same. */
  lemma NormalisedStatus<W>(link: Link<W>, w: W)
    ensures var raw := ReadStatus(link, w, true);
            var n := ReadStatus(link, w, false);
            && n.world == raw.world && n.sent == raw.sent
            && (raw.out.Ok? <==> n.out.Ok?)
            && (raw.out.Ok? ==> n.out.value == Normalise(raw.out.value))
            && (raw.out.Err? ==> n.out == Err(raw.out.error))
  {
  }

  /** The plan the set helper follows, given the raw status it read. */
  function PlanFor(v: StatusView, c: Command, val: Option<int>): seq<int>
    requires CarriesValue(c) && SettingOf(v, c).Set?
  {
    var setValue := SettingOf(v, c).value;
    SetvalPlan(setValue, IsOn(v, c), if val.None? then setValue else val.value)
  }

  /** A one-step run is one send. */
  lemma RunOneStep<W>(link: Link<W>, w: W, c: Command, v: int)
    ensures var s := Send(link, w, c, Some(v));
            RunSteps(link, w, [Step(c, Some(v))])
            == (if s.out.Err? then Run(s.world, Err(s.out.error), s.sent) else Run(s.world, Ok(()), s.sent))
  {
    var steps := [Step(c, Some(v))];
    assert steps[1..] == [];
  }

  /** A two-step run is two sends, the second only if the first succeeded. */
  lemma RunTwoSteps<W>(link: Link<W>, w: W, c: Command, v: int)
    ensures var s1 := Send(link, w, c, Some(v));
            var s2 := Send(link, s1.world, c, Some(v));
            RunSteps(link, w, [Step(c, Some(v)), Step(c, Some(v))])
            == (if s1.out.Err? then Run(s1.world, Err(s1.out.error), s1.sent)
                else if s2.out.Err? then Run(s2.world, Err(s2.out.error), s1.sent + s2.sent)
                else Run(s2.world, Ok(()), s1.sent + s2.sent))
  {
    var steps := [Step(c, Some(v)), Step(c, Some(v))];
    assert steps[1..] == [Step(c, Some(v))];
    var s1 := Send(link, w, c, Some(v));
    if s1.out.Ok? {
      RunOneStep(link, s1.world, c, v);
    }
  }

  /** After the status read, setting a channel is exactly running its plan:
      the same transactions in the same order, the same world afterwards,
      the same failure if one is raised. */
  lemma SetvalFollowsPlan<W>(link: Link<W>, w: W, c: Command, val: Option<int>)
    requires CarriesValue(c)
    requires ReadStatus(link, w, true).out.Ok?
    ensures var st := ReadStatus(link, w, true);
            Discard(SetvalRun(link, w, c, val))
            == After(st.sent, RunSteps(link, st.world, ValueSteps(c, PlanFor(st.out.value, c, val))))
  {
    var st := ReadStatus(link, w, true);
    var v := st.out.value;
    var setValue := SettingOf(v, c).value;
    var target := if val.None? then setValue else val.value;
    var steps := ValueSteps(c, PlanFor(v, c, val));
    if setValue == target && IsOn(v, c) {
      assert steps == [];
    } else if setValue == target {
      assert steps == [Step(c, Some(setValue))];
      RunOneStep(link, st.world, c, setValue);
    } else if !IsOn(v, c) {
      assert steps == [Step(c, Some(target))];
      RunOneStep(link, st.world, c, target);
    } else {
      assert steps == [Step(c, Some(target)), Step(c, Some(target))];
      RunTwoSteps(link, st.world, c, target);
    }
  }

  /** If the first send of a set fails, no further send is issued and the
      failure is raised: three frames at most went out. */
  lemma SetvalStopsAtFirstFailure<W>(link: Link<W>, w: W, c: Command, val: Option<int>)
    requires CarriesValue(c)
    requires ReadStatus(link, w, true).out.Ok?
    requires var st := ReadStatus(link, w, true);
             var plan := PlanFor(st.out.value, c, val);
             plan != [] && Send(link, st.world, c, Some(plan[0])).out.Err?
    ensures var st := ReadStatus(link, w, true);
            var plan := PlanFor(st.out.value, c, val);
            var s := Send(link, st.world, c, Some(plan[0]));
            && SetvalRun(link, w, c, val).out == Err(s.out.error)
            && SetvalRun(link, w, c, val).sent == StatusFrames + s.sent
            && |SetvalRun(link, w, c, val).sent| <= 3
  {
    SetvalFollowsPlan(link, w, c, val);
  }

  /** A failure while setting the temperature is followed by a heat-off
      before it is raised again (unless the heat-off itself fails). */
  lemma HeatRecoversFromFailure<W>(link: Link<W>, w: W, t: int)
    requires HeatLimitMin <= t <= HeatLimitMax
    requires SetvalRun(link, w, Heat, Some(t)).out.Err?
    ensures var attempt := SetvalRun(link, w, Heat, Some(t));
            var off := OffRun(link, attempt.world, [Heat]);
            && HeatRun(link, w, Some(t)).sent == attempt.sent + off.sent
            && HeatRun(link, w, Some(t)).world == off.world
            && HeatRun(link, w, Some(t)).out
               == (if off.out.Err? then Err(off.out.error) else Err(attempt.out.error))
  {
  }
}

=== FILE: transport.dfy ===
/** The full-duplex serial transaction, seen from the sequencer: one request
    frame goes out, the reply bytes (or a failure) come back. Threads, the
    busy flag and the serial port itself are behind this interface. */
module Transport {
  import opened Wrappers
  import opened Codec

  /** Failures the duplex layer raises instead of returning bytes. */
  datatype TransportError =
    | NoData     // the read timed out with nothing received
    | IoFailure  // any other failure raised while writing or reading

  /** The state of the world after one exchange, with the bytes read or the failure. */
  datatype Exchange<W> = Exchange(world: W, reply: Result<seq<Byte>, TransportError>)

  /** One write-with-read transaction: the request frame, the number of bytes to read. */
  type Link<!W> = (W, seq<Byte>, nat) -> Exchange<W>
}

=== FILE: wrappers.dfy ===
/** Failure-carrying datatypes shared by the codec and the sequencer. */
module Wrappers {

  /** An optional value: Python's `None` or a value. */
  datatype Option<+T> = None | Some(value: T)

  /** The outcome of an operation that either returns a value or raises. */
  datatype Result<+T, +E> = Ok(value: T) | Err(error: E)
}
